=== FILE: README.md ===
# Platformer decision logic in Dafny

A model of the game logic in `simple_platformer.py`, a small 2D platformer
built on a game engine. The engine does the physics, collision, rendering and
sound. This model covers only the decisions the game makes itself, as pure
functions over integers and booleans:

- **Animation** (`animation.dfy`): `PlayerCharacter.update_animation`, the
  state machine that picks the player's facing, frame counter (`cur_texture`),
  climbing flag and shown texture. Textures are tagged indices
  (`Idle(face)`, `Jump(face)`, `Fall(face)`, `Walk(frame, face)`,
  `Climb(frame)`). `cur_texture` is an unbounded integer, and list subscripts
  follow Python's rules: a negative subscript counts back from the end, and an
  out-of-range subscript gives `IndexError`. The model proves that a counter
  in 0..7 never fails and stays in 0..7.
- **Controls** (`controls.dfy`): the key flags that `on_key_press` and
  `on_key_release` maintain, and `process_keychange`, which turns those flags
  and two physics-engine answers into the player's velocity.
  `process_keychange` disarms the jump when it starts one, and releasing up or W
  re-arms it.
- **Camera** (`camera.dfy`): `center_camera_to_player`, which clamps the
  camera corner into the map.
- **Game** (`game.dfy`): the window's state (key flags, player, score, level);
  `setup`'s reset; the key handlers; `on_update`; and event traces. The
  traces prove that the game as started never raises `IndexError` and that
  holding up starts at most one jump.
- `constants.dfy` holds the source's constants. `python.dfy` holds the
  Python semantics used: floor division, list subscripting, `abs`, and the
  `Result` type for `IndexError`.

The source file contains unresolved merge-conflict regions. The model follows
the `039a7a3` side everywhere. That side defines `process_keychange`, sets
`right_pressed`, and keeps the ladder logic in `on_update`.

The engine's answers are inputs. A key event receives `is_on_ladder()` and
`can_jump(y_distance=10)`. A frame receives the player's position and
vertical velocity after `physics_engine.update()`, `is_on_ladder()`,
`can_jump()` at its default distance, `can_jump(y_distance=10)`, and the
number of coins touched.
`can_jump()` and `can_jump(y_distance=10)` are separate inputs because the
source asks both questions. Positions are whole pixels. The 640×480 viewport
is even, so the source's `/ 2` on it is exact.

`on_key_press` sets the score to 3 when the key's symbol equals
`arcade.key.MOD_SHIFT` (simple_platformer.py:365-366). That constant is the
shift bit of the modifier mask, not a key symbol. The shift keys send their
own symbols and set that bit only in `modifiers`, so pressing shift does not
trigger this assignment. The model keeps the comparison as written, with the
`ModShift` key standing for that symbol.

The level advance is an exact test, `score == 3`. It is not a threshold. A
score that passes 3 without equalling it never advances the level again
unless a `ModShift` key sets the score back to 3. For example, a `ModShift`
key followed by a frame that collects one coin gives a score of 4.
`Game.OvershotScoreNeverAdvances` states this.

## Model

| member | source | states |
|---|---|---|
| Python.FloorDiv | simple_platformer.py:123 | `cur_texture // 4` is the floor quotient: q·4 ≤ a < q·4 + 4, also for negative counters |
| Python.Abs | simple_platformer.py:118 | `abs(change_y)` is a non-negative value equal to change_y or its negation |
| Python.ListIndex | simple_platformer.py:143 | a subscript reads a list slot exactly when it lies in [-n, n); a non-negative subscript reads slot i and a negative one reads slot i + n; anything else is IndexError |
| Animation.TurnTo | simple_platformer.py:107-111 | negative change_x makes the player face left, positive makes it face right, zero keeps the facing |
| Animation.ClimbingAfter | simple_platformer.py:114-117 | after the two ladder tests, `climbing` equals `is_on_ladder` |
| Animation.NextFrame | simple_platformer.py:140-142 | the frame advance is (cur + 1) mod 8 on the eight frames, never exceeds 7, and is a valid frame from any counter ≥ -1 |
| Animation.UpdateAnimation | simple_platformer.py:105-145 | a counter in 0..7 never raises IndexError and stays in 0..7; the facing follows change_x; climbing equals is_on_ladder; a climbing texture is shown exactly when on a ladder |
| Animation.ClimbingAnimation | simple_platformer.py:118-124 | on a ladder, the counter advances cyclically exactly when abs(change_y) > 1; the texture shown is climb[cur // 4]; its index is 0 or 1 |
| Animation.NotClimbingPriority | simple_platformer.py:126-145 | off a ladder: rising shows jump[face], else falling shows fall[face], else no horizontal motion shows idle[face]; all three keep the counter; only walking advances it cyclically and shows walk[cur][face] |
| Animation.IndexErrorNeedsBadFrame | simple_platformer.py:118-145 | IndexError is possible only when the counter starts outside 0..7 |
| Animation.IndexErrorExactly | simple_platformer.py:118-145 | IndexError happens exactly when, on a ladder, the possibly advanced counter is outside [-8, 8), or when, off a ladder, walking advances a counter below -9 |
| Animation.NegativeFrameReadsFromTheEnd | simple_platformer.py:118-123 | on a ladder without vertical motion, a counter in [-8, 0) raises no error and shows climb[cur // 4 + 2], the slot Python's negative subscript reads |
| Controls.Press | simple_platformer.py:341-363 | a pressed arrow or W/A/S/D key sets its direction's flag and changes no other flag or jump_needs_reset |
| Controls.Release | simple_platformer.py:370-381 | a released key clears its direction's flag and no other; jump_needs_reset is cleared exactly when the key is up or W |
| Controls.ReleaseUndoesPress | simple_platformer.py:341-381 | pressing then releasing a key that was not held restores the flags; releasing up also leaves the jump re-armed |
| Controls.ProcessKeychange | simple_platformer.py:306-338 | change_x is 5 × (right − left); on a ladder change_y is 5 × (up − down); a jump happens iff up is held without down, off a ladder, grounded and re-armed; a jump sets change_y to 20 and disarms; otherwise jump_needs_reset is unchanged, and off a ladder change_y is left to the engine |
| Controls.HorizontalSpeed | simple_platformer.py:332-338 | change_x is +5 iff only right is held, −5 iff only left is held, and 0 iff both or neither are held |
| Controls.LadderSpeed | simple_platformer.py:311-330 | on a ladder, change_y is 0 iff both or neither vertical keys are held, +5 iff only up is held, −5 iff only down is held; there is never a jump |
| Controls.ProcessKeychangeSettles | simple_platformer.py:306-338 | running the mapping again on its own result keeps the velocity and jump flag and cannot jump a second time |
| Camera.CenterCameraToPlayer | simple_platformer.py:252-274 | the camera corner satisfies 0 ≤ x ≤ 1280 and y ≥ 0, and each coordinate equals the unclamped player-minus-half-viewport value whenever that value is in range |
| Camera.CameraIsNearestInBounds | simple_platformer.py:259-268 | in each coordinate, the clamped corner is at least as close to the ideal corner as any in-bounds point |
| Camera.CameraFollowsMonotonically | simple_platformer.py:259-268 | moving the player right or up never moves the camera left or down |
| Game.Setup | simple_platformer.py:209-224 | setup gives a new player at the spawn point and score 0; it keeps the level and the key flags |
| Game.OnKeyPress | simple_platformer.py:341-368 | a key press holds its direction and leaves the other flags alone; the score becomes 3 iff the key's symbol equals `arcade.key.MOD_SHIFT` and is otherwise kept; velocity, jump flag and jump are `process_keychange` of the pressed flags; level and every other field of the player are unchanged |
| Game.OnKeyRelease | simple_platformer.py:370-383 | a key release drops its direction and leaves the other flags alone; velocity, jump flag and jump are `process_keychange` of the released flags; releasing up never jumps and leaves the jump re-armed; score, level and every other field of the player are unchanged |
| Game.CollectCoins | simple_platformer.py:426-435 | the coins are added to the score; when the sum is exactly 3, the level goes up by one and setup runs; the resulting score is never 3 |
| Game.OnUpdate | simple_platformer.py:385-435 | the camera is the clamp of the post-physics position; the jump and key flags come from `process_keychange` with the frame's engine answers; without a level advance, the player respawns iff below the map, its ladder flag is is_on_ladder() and not can_jump(), its velocity is `process_keychange`'s and its animation is update_animation's; a level advance gives a new player; a counter in 0..7 never fails and stays in 0..7; the level rises by at most one; the score is never left at 3 |
| Game.LevelAdvance | simple_platformer.py:431-435 | a successful frame whose coins bring the score to exactly 3 raises the level by one, resets the score to 0 and gives a new player; any other frame keeps the level and adds the coins |
| Game.OvershotScoreNeverAdvances | simple_platformer.py:429-435 | a score above 3 keeps the level and stays above 3 on every frame |
| Game.StepKeepsValid | simple_platformer.py:341-435 | every key event or frame from a valid game succeeds and gives a valid game (counter in 0..7, level ≥ 1) |
| Game.RunNeverFails | simple_platformer.py:341-435 | from a valid game, no sequence of events raises IndexError; it ends valid, and the level never decreases |
| Game.StartNeverFails | simple_platformer.py:58-224 | the game as built by the player and window constructors and `setup` (counter 0, keys released, level 1) never raises IndexError on any sequence of events |
| Game.StepJumpGuard | simple_platformer.py:314-319 | a jump leaves jump_needs_reset set; while it is set, no event other than releasing up jumps or clears it |
| Game.HoldingUpJumpsAtMostOnce | simple_platformer.py:306-383 | in any event sequence that never releases up or W, at most one jump starts; none starts if the jump was already disarmed |

## Left out

- Texture, sound and tile-map loading (`load_texture_pair`, `arcade.load_*`) are left out, and so is the engine construction in `setup`. They are library calls; textures appear only as tagged indices, the jump sound only as the `jumped` flag, and the coin sound played for each collected coin (simple_platformer.py:428) not at all.
- The physics engine (`physics_engine.update`, gravity, `is_on_ladder`, `can_jump`) is not modelled. Its answers are inputs to each event.
- Collision detection (`check_for_collision_with_list`) and coin removal are not modelled. A frame receives only the number of coins touched.
- Rendering is left out: `on_draw`, the score text, camera `use`/`move_to`, the light layer and the light's position. The model returns the camera's target instead of moving a camera.
- The HEAD side of the merge conflicts is left out: the SPACE light toggle, the `change_x` assignment on RIGHT, and `scene.update_animation`. These regions do not form a consistent program with the other side.
- `scene.update` for moving platforms is engine work and is not modelled.
- The sprite's `can_jump`, `jumping` and the window's `reset_score` attributes are written but never read, so they are not modelled.
- `delta_time` is ignored by `update_animation` and is not modelled.
- The event loop (`arcade.run`, `main`) is not modelled. `Game.Run` stands for it over a given sequence of events.
- Velocities and positions are integers, not the engine's floats.
- Game.OnUpdate: when a subscript fails, the model returns only `IndexError`. It does not keep the partly updated state; in Python that exception ends the game loop.

=== FILE: animation.dfy ===
/** The player sprite's animation state machine: which way it faces, which
    frame counter it keeps, whether it is climbing, and which texture it shows. */
module Animation {
  import opened Python
  import opened Constants

  /** RIGHT_FACING (0) and LEFT_FACING (1), the index into each texture pair. */
  datatype Facing = RightFacing | LeftFacing

  /** The textures the sprite can show, as tagged indices into what it loaded. */
  datatype Texture =
    | Idle(face: Facing)
    | Jump(face: Facing)
    | Fall(face: Facing)
    | Walk(frame: nat, face: Facing)
    | Climb(frame: nat)

  /** The fields update_animation reads and writes. cur_texture is kept as an
      unbounded integer, so the model also covers values the game never reaches. */
  datatype AnimState = AnimState(face: Facing, curTexture: int, climbing: bool)

  /** A freshly constructed player: facing right, frame 0, not climbing. */
  const Initial: AnimState := AnimState(RightFacing, 0, false)
  const InitialTexture: Texture := Idle(RightFacing)

  /** The new state together with the texture it shows. */
  datatype Shown = Shown(state: AnimState, texture: Texture)

  predicate ValidFrame(cur: int) {
    0 <= cur < WalkFrameCount
  }

  /** The facing flip at the start of update_animation. */
  function TurnTo(face: Facing, changeX: int): (f: Facing)
    ensures changeX < 0 ==> f == LeftFacing
    ensures changeX > 0 ==> f == RightFacing
    ensures changeX == 0 ==> f == face
  {
    match face
    case RightFacing => if changeX < 0 then LeftFacing else RightFacing
    case LeftFacing => if changeX > 0 then RightFacing else LeftFacing
  }

  /** The two ladder tests that set and clear `climbing`. */
  function ClimbingAfter(climbing: bool, onLadder: bool): (c: bool)
    ensures c == onLadder
  {
    var entered := if onLadder then true else climbing;
    if !onLadder && entered then false else entered
  }

  /** cur_texture += 1, reset to 0 once it passes the last frame. */
  function NextFrame(cur: int): (n: int)
    ensures ValidFrame(cur) ==> n == (cur + 1) % WalkFrameCount
    ensures n <= LastFrame
    ensures cur >= -1 ==> ValidFrame(n)
  {
    if cur + 1 > LastFrame then 0 else cur + 1
  }

  /** update_animation: one frame of the animation state machine, given the
      sprite's velocity and its is_on_ladder flag. A subscript outside the
      texture lists ends in IndexError. */
  function UpdateAnimation(s: AnimState, changeX: int, changeY: int, onLadder: bool): (r: Result<Shown>)
    ensures ValidFrame(s.curTexture) ==> r.Ok? && ValidFrame(r.value.state.curTexture)
    ensures r.Ok? ==> r.value.state.face == TurnTo(s.face, changeX)
    ensures r.Ok? ==> r.value.state.climbing == onLadder
    ensures r.Ok? ==> (r.value.texture.Climb? <==> onLadder)
  {
    var face := TurnTo(s.face, changeX);
    var climbing := ClimbingAfter(s.climbing, onLadder);
    var cur := if climbing && Abs(changeY) > 1 then NextFrame(s.curTexture) else s.curTexture;
    if climbing then
      match ListIndex(ClimbFrameCount, FloorDiv(cur, FramesPerClimbTexture))
      case IndexError => IndexError
      case Ok(i) => Ok(Shown(AnimState(face, cur, climbing), Climb(i)))
    else if changeY > 0 && !onLadder then
      Ok(Shown(AnimState(face, cur, climbing), Jump(face)))
    else if changeY < 0 && !onLadder then
      Ok(Shown(AnimState(face, cur, climbing), Fall(face)))
    else if changeX == 0 then
      Ok(Shown(AnimState(face, cur, climbing), Idle(face)))
    else
      var next := NextFrame(cur);
      match ListIndex(WalkFrameCount, next)
      case IndexError => IndexError
      case Ok(i) => Ok(Shown(AnimState(face, next, climbing), Walk(i, face)))
  }

  /** On a ladder the climbing texture cur_texture // 4 is shown, always one of
      the two loaded, and the frame advances exactly when |change_y| > 1. */
  lemma ClimbingAnimation(s: AnimState, changeX: int, changeY: int)
    requires ValidFrame(s.curTexture)
    ensures var r := UpdateAnimation(s, changeX, changeY, true);
            var cur := if Abs(changeY) > 1 then (s.curTexture + 1) % WalkFrameCount else s.curTexture;
            && r.Ok?
            && r.value.state == AnimState(TurnTo(s.face, changeX), cur, true)
            && r.value.texture == Climb(cur / FramesPerClimbTexture)
            && r.value.texture.frame < ClimbFrameCount
  {
  }

  /** Off a ladder the texture follows a fixed priority: rising shows the jump
      texture, then falling the fall texture, then standing still the idle
      texture; only walking moves the frame counter, cyclically. */
  lemma NotClimbingPriority(s: AnimState, changeX: int, changeY: int)
    ensures var r := UpdateAnimation(s, changeX, changeY, false);
            var face := TurnTo(s.face, changeX);
            var kept := AnimState(face, s.curTexture, false);
            && (changeY > 0 ==> r == Ok(Shown(kept, Jump(face))))
            && (changeY < 0 ==> r == Ok(Shown(kept, Fall(face))))
            && (changeY == 0 && changeX == 0 ==> r == Ok(Shown(kept, Idle(face))))
            && (changeY == 0 && changeX != 0 && ValidFrame(s.curTexture) ==>
                  var next := (s.curTexture + 1) % WalkFrameCount;
                  r == Ok(Shown(AnimState(face, next, false), Walk(next, face))))
  {
  }

  /** Only a frame counter outside 0..7 can make a subscript fail: a corollary
      of UpdateAnimation's first postcondition, kept as the direct statement. */
  lemma IndexErrorNeedsBadFrame(s: AnimState, changeX: int, changeY: int, onLadder: bool)
    ensures UpdateAnimation(s, changeX, changeY, onLadder).IndexError? ==>
              s.curTexture < 0 || s.curTexture > LastFrame
  {
  }

  /** Exactly when a subscript fails: on a ladder when the (possibly advanced)
      counter lies outside [-8, 8), so that cur // 4 misses both climbing
      textures; off a ladder only when walking advances a counter below -9. */
  lemma IndexErrorExactly(s: AnimState, changeX: int, changeY: int, onLadder: bool)
    ensures var cur := if Abs(changeY) > 1 then NextFrame(s.curTexture) else s.curTexture;
            UpdateAnimation(s, changeX, changeY, onLadder).IndexError? <==>
              if onLadder then !(-8 <= cur < 8)
              else changeY == 0 && changeX != 0 && s.curTexture < -9
  {
  }

  /** A negative counter in [-8, 0) on a ladder reads the climbing textures
      from the end through Python's negative subscripts: cur // 4 + 2. */
  lemma NegativeFrameReadsFromTheEnd(s: AnimState, changeX: int, changeY: int)
    requires -8 <= s.curTexture < 0 && Abs(changeY) <= 1
    ensures UpdateAnimation(s, changeX, changeY, true) ==
              Ok(Shown(AnimState(TurnTo(s.face, changeX), s.curTexture, true),
                       Climb(s.curTexture / FramesPerClimbTexture + ClimbFrameCount)))
  {
  }
}

=== FILE: camera.dfy ===
/** The main camera's follow rule. Positions are whole pixels. */
module Camera {
  import opened Python
  import opened Constants

  datatype Point = Point(x: int, y: int)

  /** The bottom-left corner that would put the player in the centre of the
      viewport, before any clamping. */
  function IdealCorner(player: Point): Point {
    Point(player.x - ScreenWidth / 2, player.y - ScreenHeight / 2)
  }

  /** The area the camera's corner may occupy: 0 <= x <= 1280 and y >= 0. */
  predicate InBounds(p: Point) {
    0 <= p.x <= CameraMaxX && 0 <= p.y
  }

  /** center_camera_to_player: the ideal corner, pushed back inside the map's
      bounds one coordinate at a time. */
  function CenterCameraToPlayer(player: Point): (p: Point)
    ensures InBounds(p)
    ensures InBounds(IdealCorner(player)) ==> p == IdealCorner(player)
    ensures 0 <= IdealCorner(player).x <= CameraMaxX ==> p.x == IdealCorner(player).x
    ensures 0 <= IdealCorner(player).y ==> p.y == IdealCorner(player).y
  {
    var x := player.x - ScreenWidth / 2;
    var y := player.y - ScreenHeight / 2;
    var x := if x < 0 then 0 else x;
    var x := if x > CameraMaxX then CameraMaxX else x;
    var y := if y < 0 then 0 else y;
    Point(x, y)
  }

  /** The camera's corner is, coordinate by coordinate, the in-bounds point
      nearest the ideal corner. */
  lemma CameraIsNearestInBounds(player: Point, q: Point)
    requires InBounds(q)
    ensures var p := CenterCameraToPlayer(player);
            var ideal := IdealCorner(player);
            && Abs(p.x - ideal.x) <= Abs(q.x - ideal.x)
            && Abs(p.y - ideal.y) <= Abs(q.y - ideal.y)
  {
  }

  /** A player further right or further up never moves the camera left or down. */
  lemma CameraFollowsMonotonically(a: Point, b: Point)
    requires a.x <= b.x && a.y <= b.y
    ensures CenterCameraToPlayer(a).x <= CenterCameraToPlayer(b).x
    ensures CenterCameraToPlayer(a).y <= CenterCameraToPlayer(b).y
  {
  }
}

=== FILE: constants.dfy ===
/** The module-level constants of the platformer that its decision logic uses. */
module Constants {

  /** Window size; the main camera's viewport has the same size. */
  const ScreenWidth: int := 640
  const ScreenHeight: int := 480

  /** Horizontal and ladder speed, and the upward speed given by a jump. */
  const PlayerMovementSpeed: int := 5
  const PlayerJumpSpeed: int := 20

  /** Where a new (or fallen) player is placed. */
  const PlayerSpawnX: int := 64
  const PlayerSpawnY: int := 128

  /** Eight walking textures and two climbing textures are loaded per player. */
  const WalkFrameCount: nat := 8
  const ClimbFrameCount: nat := 2
  /** The largest value cur_texture keeps before it wraps back to 0. */
  const LastFrame: int := 7
  /** Each climbing texture is shown for four consecutive values of cur_texture. */
  const FramesPerClimbTexture: int := 4

  /** The camera's bottom-left corner never goes right of this x coordinate. */
  const CameraMaxX: int := 1280

  /** Diamonds a level holds; collecting this many moves to the next level. */
  const ScoreToAdvance: nat := 3
  const FirstLevel: nat := 1
}

=== FILE: controls.dfy ===
/** Keyboard state and the mapping from held keys to the player's velocity. */
module Controls {
  import opened Python
  import opened Constants

  /** The keys the game tells apart. ModShift is a key whose symbol equals
      arcade.key.MOD_SHIFT, which is the shift bit of the modifier mask; the
      shift keys themselves send other symbols, so they arrive as OtherKey.
      Every other key only triggers a re-run of the velocity mapping. */
  datatype Key = UpArrow | W | DownArrow | S | LeftArrow | A | RightArrow | D | ModShift | OtherKey

  datatype Direction = Up | Down | Left | Right

  /** Which direction flag a key drives: arrows and W/A/S/D alike. */
  function DirectionOf(k: Key): Option<Direction> {
    match k
    case UpArrow => Some(Up)
    case W => Some(Up)
    case DownArrow => Some(Down)
    case S => Some(Down)
    case LeftArrow => Some(Left)
    case A => Some(Left)
    case RightArrow => Some(Right)
    case D => Some(Right)
    case _ => None
  }

  /** The four *_pressed flags and jump_needs_reset. */
  datatype Controls = Controls(up: bool, down: bool, left: bool, right: bool, jumpNeedsReset: bool)

  const Released: Controls := Controls(false, false, false, false, false)

  function Held(c: Controls, d: Direction): bool {
    match d
    case Up => c.up
    case Down => c.down
    case Left => c.left
    case Right => c.right
  }

  /** The flag updates of on_key_press: the key's direction becomes held and
      nothing else changes. */
  function Press(c: Controls, k: Key): (c': Controls)
    ensures DirectionOf(k).Some? ==> Held(c', DirectionOf(k).value)
    ensures forall d :: DirectionOf(k) != Some(d) ==> Held(c', d) == Held(c, d)
    ensures c'.jumpNeedsReset == c.jumpNeedsReset
  {
    if k == UpArrow || k == W then c.(up := true)
    else if k == DownArrow || k == S then c.(down := true)
    else if k == LeftArrow || k == A then c.(left := true)
    else if k == RightArrow || k == D then c.(right := true)
    else c
  }

  /** The flag updates of on_key_release: the key's direction is no longer
      held, and letting go of up also re-arms the jump. */
  function Release(c: Controls, k: Key): (c': Controls)
    ensures DirectionOf(k).Some? ==> !Held(c', DirectionOf(k).value)
    ensures forall d :: DirectionOf(k) != Some(d) ==> Held(c', d) == Held(c, d)
    ensures c'.jumpNeedsReset == (c.jumpNeedsReset && DirectionOf(k) != Some(Up))
  {
    if k == UpArrow || k == W then c.(up := false, jumpNeedsReset := false)
    else if k == DownArrow || k == S then c.(down := false)
    else if k == LeftArrow || k == A then c.(left := false)
    else if k == RightArrow || k == D then c.(right := false)
    else c
  }

  /** Releasing a key that was pressed from the released state restores the
      flags, except that releasing up leaves the jump re-armed. */
  lemma ReleaseUndoesPress(c: Controls, k: Key)
    requires DirectionOf(k).Some? && !Held(c, DirectionOf(k).value)
    ensures Release(Press(c, k), k) == c.(jumpNeedsReset := c.jumpNeedsReset && DirectionOf(k) != Some(Up))
  {
  }

  /** The player's velocity; x to the right, y upward. */
  datatype Velocity = Velocity(changeX: int, changeY: int)

  /** The two physics-engine queries the mapping makes: is_on_ladder() and
      can_jump(y_distance=10). */
  datatype EngineQuery = EngineQuery(onLadder: bool, canJump: bool)

  /** The new velocity, the new jump_needs_reset, and whether a jump (and its
      sound) happened. */
  datatype Response = Response(velocity: Velocity, jumpNeedsReset: bool, jumped: bool)

  /** +1 when only the positive key is held, -1 when only the negative one is,
      0 when both or neither are. */
  function Axis(positive: bool, negative: bool): int {
    (if positive then 1 else 0) - (if negative then 1 else 0)
  }

  /** process_keychange. The horizontal velocity is always recomputed; the
      vertical one is left to the physics engine unless the player is on a
      ladder or starts a jump. */
  function ProcessKeychange(c: Controls, changeY: int, q: EngineQuery): (r: Response)
    ensures r.velocity.changeX == PlayerMovementSpeed * Axis(c.right, c.left)
    ensures q.onLadder ==> r.velocity.changeY == PlayerMovementSpeed * Axis(c.up, c.down)
    ensures r.jumped <==> c.up && !c.down && !q.onLadder && q.canJump && !c.jumpNeedsReset
    ensures r.jumped ==> r.velocity.changeY == PlayerJumpSpeed && r.jumpNeedsReset
    ensures !r.jumped ==> r.jumpNeedsReset == c.jumpNeedsReset
    ensures !q.onLadder && !r.jumped ==> r.velocity.changeY == changeY
  {
    var (upDownY, reset, jumped) :=
      if c.up && !c.down then
        if q.onLadder then (PlayerMovementSpeed, c.jumpNeedsReset, false)
        else if q.canJump && !c.jumpNeedsReset then (PlayerJumpSpeed, true, true)
        else (changeY, c.jumpNeedsReset, false)
      else if c.down && !c.up then
        if q.onLadder then (-PlayerMovementSpeed, c.jumpNeedsReset, false)
        else (changeY, c.jumpNeedsReset, false)
      else (changeY, c.jumpNeedsReset, false);
    var newY :=
      if q.onLadder && ((!c.up && !c.down) || (c.up && c.down)) then 0 else upDownY;
    var newX :=
      if c.right && !c.left then PlayerMovementSpeed
      else if c.left && !c.right then -PlayerMovementSpeed
      else 0;
    Response(Velocity(newX, newY), reset, jumped)
  }

  /** Horizontal speed is +5 exactly when only right is held, -5 exactly when
      only left is held, and 0 when both or neither are. */
  lemma HorizontalSpeed(c: Controls, changeY: int, q: EngineQuery)
    ensures var x := ProcessKeychange(c, changeY, q).velocity.changeX;
            && (x == PlayerMovementSpeed <==> c.right && !c.left)
            && (x == -PlayerMovementSpeed <==> c.left && !c.right)
            && (x == 0 <==> c.left == c.right)
  {
  }

  /** On a ladder: still with neither or both vertical keys, otherwise 5 up or
      5 down; never a jump. */
  lemma LadderSpeed(c: Controls, changeY: int, q: EngineQuery)
    requires q.onLadder
    ensures var r := ProcessKeychange(c, changeY, q);
            && (r.velocity.changeY == 0 <==> c.up == c.down)
            && (r.velocity.changeY == PlayerMovementSpeed <==> c.up && !c.down)
            && (r.velocity.changeY == -PlayerMovementSpeed <==> c.down && !c.up)
            && !r.jumped
  {
  }

  /** Running the mapping a second time on its own output, with the same
      engine answers, changes nothing and cannot jump again. This is a second
      key event between two frames that leaves the flags as they were, such as
      a press of a key with no direction. */
  lemma ProcessKeychangeSettles(c: Controls, changeY: int, q: EngineQuery)
    ensures var r1 := ProcessKeychange(c, changeY, q);
            var r2 := ProcessKeychange(c.(jumpNeedsReset := r1.jumpNeedsReset), r1.velocity.changeY, q);
            r2.velocity == r1.velocity && r2.jumpNeedsReset == r1.jumpNeedsReset && !r2.jumped
  {
  }
}

=== FILE: game.dfy ===
/** The window's per-event logic: key handlers, the per-frame update, and the
    score and level bookkeeping, with the physics engine's answers as inputs. */
module Game {
  import opened Python
  import opened Constants
  import opened Animation
  import opened Controls
  import opened Camera

  /** The player sprite: position, velocity, its is_on_ladder flag, and its
      animation state with the texture it currently shows. */
  datatype Player = Player(pos: Point, velocity: Velocity, onLadder: bool, anim: AnimState, texture: Texture)

  /** A new player at the spawn point, standing still. */
  const NewPlayer: Player :=
    Player(Point(PlayerSpawnX, PlayerSpawnY), Velocity(0, 0), false, Animation.Initial, InitialTexture)

  datatype Game = Game(controls: Controls, player: Player, score: nat, level: nat)

  /** The window after its constructor and the first call of setup. */
  const Start: Game := Game(Released, NewPlayer, 0, FirstLevel)

  /** setup: a new player at the spawn point and the score back to 0. The level
      and the key flags survive. */
  function Setup(g: Game): (g': Game)
    ensures g'.score == 0 && g'.player == NewPlayer
    ensures g'.level == g.level && g'.controls == g.controls
  {
    g.(player := NewPlayer, score := 0)
  }

  /** The result of a key event, and whether it started a jump. */
  datatype Outcome = Outcome(game: Game, jumped: bool)

  /** Runs process_keychange on the game with the given key flags. */
  function Keychange(g: Game, c: Controls, q: EngineQuery): Outcome {
    var r := ProcessKeychange(c, g.player.velocity.changeY, q);
    Outcome(g.(controls := c.(jumpNeedsReset := r.jumpNeedsReset),
               player := g.player.(velocity := r.velocity)),
            r.jumped)
  }

  /** on_key_press: set the key's flag, let a key whose symbol equals
      arcade.key.MOD_SHIFT set the score to 3, then
      recompute the velocity. */
  function OnKeyPress(g: Game, k: Key, q: EngineQuery): (o: Outcome)
    ensures o.game.score == (if k == ModShift then ScoreToAdvance else g.score)
    ensures o.game.level == g.level
    ensures o.game.player == g.player.(velocity := o.game.player.velocity)
    ensures DirectionOf(k).Some? ==> Held(o.game.controls, DirectionOf(k).value)
    ensures forall d :: DirectionOf(k) != Some(d) ==> Held(o.game.controls, d) == Held(g.controls, d)
    ensures var r := ProcessKeychange(Press(g.controls, k), g.player.velocity.changeY, q);
            && o.game.player.velocity == r.velocity
            && o.game.controls.jumpNeedsReset == r.jumpNeedsReset
            && o.jumped == r.jumped
  {
    var c := Press(g.controls, k);
    var g1 := if k == ModShift then g.(score := ScoreToAdvance) else g;
    Keychange(g1, c, q)
  }

  /** on_key_release: clear the key's flag (up also re-arms the jump), then
      recompute the velocity. */
  function OnKeyRelease(g: Game, k: Key, q: EngineQuery): (o: Outcome)
    ensures o.game.score == g.score && o.game.level == g.level
    ensures o.game.player == g.player.(velocity := o.game.player.velocity)
    ensures DirectionOf(k).Some? ==> !Held(o.game.controls, DirectionOf(k).value)
    ensures DirectionOf(k) == Some(Up) ==> !o.jumped && !o.game.controls.jumpNeedsReset
    ensures forall d :: DirectionOf(k) != Some(d) ==> Held(o.game.controls, d) == Held(g.controls, d)
    ensures var r := ProcessKeychange(Release(g.controls, k), g.player.velocity.changeY, q);
            && o.game.player.velocity == r.velocity
            && o.game.controls.jumpNeedsReset == r.jumpNeedsReset
            && o.jumped == r.jumped
  {
    Keychange(g, Release(g.controls, k), q)
  }

  /** What the physics engine reports during one frame: the player's position
      and vertical velocity after its update, is_on_ladder(), can_jump() at its
      default distance, can_jump(y_distance=10), and how many coins the player
      touches. */
  datatype Physics = Physics(pos: Point, changeY: int, onLadder: bool,
                             canJump: bool, canJumpHigh: bool, coinsHit: nat)

  /** The frame's result, where the camera was moved to, and whether a jump
      started. */
  datatype Tick = Tick(game: Game, camera: Point, jumped: bool)

  /** The score and level bookkeeping at the end of a frame: add the coins,
      and at exactly three move to the next level and run setup. */
  function CollectCoins(g: Game, coins: nat): (g': Game)
    ensures g.score + coins == ScoreToAdvance ==> g' == Setup(g.(level := g.level + 1))
    ensures g.score + coins != ScoreToAdvance ==> g' == g.(score := g.score + coins)
    ensures g'.score != ScoreToAdvance
  {
    var g1 := g.(score := g.score + coins);
    if g1.score == ScoreToAdvance then Setup(g1.(level := g1.level + 1)) else g1
  }

  /** on_update. */
  function OnUpdate(g: Game, f: Physics): (r: Result<Tick>)
    ensures ValidFrame(g.player.anim.curTexture) ==> r.Ok? && ValidFrame(r.value.game.player.anim.curTexture)
    ensures r.Ok? ==> InBounds(r.value.camera)
    ensures r.Ok? ==> r.value.game.level == g.level || r.value.game.level == g.level + 1
    ensures r.Ok? ==> r.value.game.score != ScoreToAdvance
    ensures r.Ok? ==> r.value.camera == CenterCameraToPlayer(f.pos)
    ensures r.Ok? && g.score + f.coinsHit == ScoreToAdvance ==> r.value.game.player == NewPlayer
    ensures var keys := ProcessKeychange(g.controls, f.changeY, EngineQuery(f.onLadder, f.canJumpHigh));
            r.Ok? ==>
              && r.value.jumped == keys.jumped
              && r.value.game.controls == g.controls.(jumpNeedsReset := keys.jumpNeedsReset)
              && (g.score + f.coinsHit != ScoreToAdvance ==>
                    var p := r.value.game.player;
                    && p.pos == (if f.pos.y < 0 then Point(PlayerSpawnX, PlayerSpawnY) else f.pos)
                    && p.onLadder == (f.onLadder && !f.canJump)
                    && p.velocity == keys.velocity
                    && Ok(Shown(p.anim, p.texture)) ==
                         UpdateAnimation(g.player.anim, keys.velocity.changeX, keys.velocity.changeY, p.onLadder))
  {
    var moved := g.player.(pos := f.pos, velocity := g.player.velocity.(changeY := f.changeY));
    var camera := CenterCameraToPlayer(moved.pos);
    var onLadder := f.onLadder && !f.canJump;
    var k := Keychange(g.(player := moved.(onLadder := onLadder)), g.controls,
                       EngineQuery(f.onLadder, f.canJumpHigh));
    var p := k.game.player;
    match UpdateAnimation(p.anim, p.velocity.changeX, p.velocity.changeY, p.onLadder)
    case IndexError => IndexError
    case Ok(shown) =>
      var pos := if p.pos.y < 0 then Point(PlayerSpawnX, PlayerSpawnY) else p.pos;
      var g1 := k.game.(player := p.(pos := pos, anim := shown.state, texture := shown.texture));
      Ok(Tick(CollectCoins(g1, f.coinsHit), camera, k.jumped))
  }

  /** Reaching exactly three diamonds moves to the next level with a fresh
      player and score 0; otherwise the score just grows by the coins taken. */
  lemma LevelAdvance(g: Game, f: Physics)
    ensures OnUpdate(g, f).Ok? ==>
            var t := OnUpdate(g, f).value.game;
            && (g.score + f.coinsHit == ScoreToAdvance ==>
                  t.level == g.level + 1 && t.score == 0 && t.player == NewPlayer)
            && (g.score + f.coinsHit != ScoreToAdvance ==>
                  t.level == g.level && t.score == g.score + f.coinsHit)
  {
  }

  /** A score that has passed three without hitting it exactly never advances
      the level again on its own: only a key whose symbol equals
      arcade.key.MOD_SHIFT can bring it back. */
  lemma OvershotScoreNeverAdvances(g: Game, f: Physics)
    requires g.score > ScoreToAdvance
    ensures OnUpdate(g, f).Ok? ==>
              OnUpdate(g, f).value.game.level == g.level &&
              OnUpdate(g, f).value.game.score > ScoreToAdvance
  {
  }

  /** Any of the window's events. */
  datatype Event =
    | KeyDown(key: Key, query: EngineQuery)
    | KeyUp(key: Key, query: EngineQuery)
    | Frame(physics: Physics)

  function Step(g: Game, e: Event): Result<Outcome> {
    match e
    case KeyDown(k, q) => Ok(OnKeyPress(g, k, q))
    case KeyUp(k, q) => Ok(OnKeyRelease(g, k, q))
    case Frame(f) =>
      match OnUpdate(g, f)
      case IndexError => IndexError
      case Ok(t) => Ok(Outcome(t.game, t.jumped))
  }

  /** The final game after a sequence of events and how many jumps started. */
  datatype Trace = Trace(game: Game, jumps: nat)

  function Run(g: Game, es: seq<Event>): Result<Trace>
    decreases |es|
  {
    if |es| == 0 then Ok(Trace(g, 0))
    else
      match Step(g, es[0])
      case IndexError => IndexError
      case Ok(o) =>
        match Run(o.game, es[1..])
        case IndexError => IndexError
        case Ok(t) => Ok(Trace(t.game, t.jumps + (if o.jumped then 1 else 0)))
  }

  /** The game's invariant: the animation frame counter is one of the eight,
      and the level is at least the first. */
  predicate Valid(g: Game) {
    ValidFrame(g.player.anim.curTexture) && g.level >= FirstLevel
  }

  lemma StepKeepsValid(g: Game, e: Event)
    requires Valid(g)
    ensures Step(g, e).Ok? && Valid(Step(g, e).value.game)
  {
  }

  /** From a valid game no event sequence ever subscripts a texture list out
      of range, and the level never goes down. */
  lemma {:induction false} RunNeverFails(g: Game, es: seq<Event>)
    requires Valid(g)
    ensures Run(g, es).Ok?
    ensures Valid(Run(g, es).value.game)
    ensures Run(g, es).value.game.level >= g.level
    decreases |es|
  {
    if |es| > 0 {
      StepKeepsValid(g, es[0]);
      var o := Step(g, es[0]).value;
      assert o.game.level >= g.level by {
        match es[0]
        case KeyDown(k, q) =>
        case KeyUp(k, q) =>
        case Frame(f) =>
      }
      RunNeverFails(o.game, es[1..]);
    }
  }

  /** The game as it starts is valid, so it never raises IndexError. */
  lemma StartNeverFails(es: seq<Event>)
    ensures Run(Start, es).Ok?
  {
    assert Valid(Start);
    RunNeverFails(Start, es);
  }

  predicate ReleasesUp(e: Event) {
    e.KeyUp? && DirectionOf(e.key) == Some(Up)
  }

  /** One event: a jump always leaves the jump disarmed, and a disarmed jump
      stays disarmed, without jumping, until up is released. */
  lemma StepJumpGuard(g: Game, e: Event)
    requires Step(g, e).Ok?
    ensures Step(g, e).value.jumped ==> Step(g, e).value.game.controls.jumpNeedsReset
    ensures g.controls.jumpNeedsReset && !ReleasesUp(e) ==>
              !Step(g, e).value.jumped && Step(g, e).value.game.controls.jumpNeedsReset
  {
  }

  /** Holding up cannot jump again: while up is never released, at most one
      jump starts, and none at all if the jump was already disarmed. */
  lemma {:induction false} HoldingUpJumpsAtMostOnce(g: Game, es: seq<Event>)
    requires forall i :: 0 <= i < |es| ==> !ReleasesUp(es[i])
    requires Run(g, es).Ok?
    ensures Run(g, es).value.jumps <= 1
    ensures g.controls.jumpNeedsReset ==> Run(g, es).value.jumps == 0
    decreases |es|
  {
    if |es| > 0 {
      StepJumpGuard(g, es[0]);
      var o := Step(g, es[0]).value;
      assert forall i :: 0 <= i < |es[1..]| ==> !ReleasesUp(es[1..][i]) by {
        forall i | 0 <= i < |es[1..]| ensures !ReleasesUp(es[1..][i]) {
          assert es[1..][i] == es[i + 1];
        }
      }
      HoldingUpJumpsAtMostOnce(o.game, es[1..]);
    }
  }
}

=== FILE: python.dfy ===
/** The few pieces of Python semantics the platformer's logic relies on. */
module Python {

  /** Success or the IndexError a bad list subscript raises. */
  datatype Result<+T> = Ok(value: T) | IndexError

  /** A value that may be absent, such as the direction of a key that has none. */
  datatype Option<+T> = None | Some(value: T)

  /** Python's abs on an integer. */
  function Abs(x: int): (r: nat)
    ensures r == x || r == -x
  {
    if x < 0 then -x else x
  }

  /** Python's floor division a // b. For a positive divisor Dafny's Euclidean
      division rounds the same way, so the quotient is the floor. */
  function FloorDiv(a: int, b: int): (q: int)
    requires b > 0
    ensures q * b <= a < q * b + b
  {
    a / b
  }

  /** The position that the subscript xs[i] reads in a list of length n:
      negative subscripts count back from the end, and anything outside
      [-n, n) raises IndexError. */
  function ListIndex(n: nat, i: int): (r: Result<nat>)
    ensures r.Ok? <==> -(n as int) <= i < n
    ensures r.Ok? ==> r.value < n
    ensures r.Ok? && 0 <= i ==> r.value == i
    ensures r.Ok? && i < 0 ==> r.value == i + n
  {
    if 0 <= i < n then Ok(i)
    else if -(n as int) <= i < 0 then Ok(i + n)
    else IndexError
  }
}
